=== FILE: README.md ===
# WaterButler CRUD handler and Dataverse metadata, modelled in Dafny

WaterButler is a storage gateway: one streaming HTTP surface (download,
upload, delete) in front of many storage backends ("providers"). This
project models two of its pieces as pure functions and proves what they
promise.

1. **The CRUD request handler** (`CRUDHandler` in
   `waterbutler/server/handlers/crud.py`). Each HTTP method becomes a
   function. It takes the request arguments and the provider's behaviour
   for this request. It returns an `Outcome`: a response (a redirect, or a
   status with headers and body chunks) or the error that ended the
   request, plus a trace. The trace lists, in order, the provider calls,
   the stream steps (open, feed, end of stream, await, read, write, flush)
   and the hooks sent. `Handle` composes `prepare_stream`, one
   `data_received` per body chunk and the method handler.
2. **Dataverse metadata normalisation**
   (`waterbutler/providers/dataverse/metadata.py`). A file record is read
   from a raw `datafile` payload and a dataset-version string. A dataset
   (folder) record owns one file record per element of `raw['files']`. Raw
   payloads are decoded JSON (`Python.Json`). `raw[key]` raises the
   KeyError or TypeError Python would.

Helpers that live outside these two files have no bodies here. They are
function-valued parameters, and every property holds for all of them:

- `build_path`, the base classes' `serialized()`, and `str()` of a JSON
  list or dict are fields of `DataverseMetadata.Env`.
- `utils.make_disposition` is the `makeDisposition` parameter. It formats
  a `Content-Disposition` value as in section 4 of RFC 6266.
- `RequestStreamReader` shows up only as the `DataFed` and `EofFed` steps it
  receives.

Files:

- `wrappers.dfy`: `Option` and `Result`.
- `python.dfy`: decoded JSON, `[key]` subscripting, `str()` of an int and
  its inverse, ASCII `lower()`.
- `crud_types.dfy`: the request, provider outcomes, response, events and
  errors. A streamed download result carries the chunks its reads return
  and, optionally, the exception the read after them raises.
- `download_stream.dfy`: the download loop, as a recursive function and as
  a method with loop invariants.
- `crud_handler.dfy`: `TRUTH_MAP`, `prepare_stream`, `data_received`,
  `get`, `put`, `delete` and `Handle`.
- `crud_properties.dfy`: lemmas about whole requests.
- `dataverse_metadata.dfy`: the Dataverse file and dataset records.

Where one might expect otherwise, the model follows the code:

- A directory DELETE does not produce a 400 as written (see Findings). The
  rest of the model uses the corrected 400.
- `name` and `content_type` raise KeyError when the raw field is missing.
  They do not return an absent value.
- A Dataverse file's path is built from `file_id` alone, not from the
  dataset's path.
- `Content-Length` depends on the truthiness of `size`, so a size of 0
  sends no header.
- An overwrite answers with the default status 200.

## Model

| member | source | states |
|---|---|---|
| `CrudHandler.ParseAcceptUrl` | waterbutler/server/handlers/crud.py:52-55 | An absent `accept_url` means true. Any mix of cases of "true" means true, and of "false" means false. Anything else is an HTTP 400. |
| `CrudHandler.LowerIsCaseInsensitive` | waterbutler/server/handlers/crud.py:53 | `lower()` gives a lower-case word exactly when the input spells that word with each letter in either case. |
| `CrudProperties.BadAcceptUrlRejected` | waterbutler/server/handlers/crud.py:52-57 | A GET with an unrecognised `accept_url` answers 400 with an empty trace, so `download` is never called. |
| `CrudHandler.Get` | waterbutler/server/handlers/crud.py:49-87 | A bad `accept_url` gives 400 and no calls. Otherwise the first step is the one `download` call, with the request arguments and `accept_url` converted to a bool. Every later step is a read, write or flush. A raising `download` ends the request with its exception after that one call. A streamed result is served by `ServeStream` after the call. |
| `CrudProperties.EmptyChunkHidesReadError` | waterbutler/server/handlers/crud.py:82-85 | When the stream returns an empty chunk, the loop stops there, so a read that would raise later is never made and the download answers 200. |
| `CrudHandler.ServeStream` | waterbutler/server/handlers/crud.py:62-87 | After a stream comes back, the handler only reads, writes and flushes. Without a disposition it fails with the KeyError and touches nothing. Otherwise its steps are the download loop's, and it ends with the provider's exception exactly when a read raised. |
| `CrudProperties.UrlBecomesRedirect` | waterbutler/server/handlers/crud.py:57-60 | A string result becomes a redirect to exactly that string. No headers are set and nothing is read or written. |
| `CrudHandler.ResponseHeaders` | waterbutler/server/handlers/crud.py:62-65 | The provider response's headers when the result has a `response`, otherwise an empty map. |
| `CrudHandler.ContentHeaders` | waterbutler/server/handlers/crud.py:67-69 | `Content-Type` is always the result's content type. `Content-Length` is present iff the size is non-zero, and its decimal string reads back as the size. `Content-Disposition` is set. No other header is set. |
| `Python.IntToStringRoundTrip` | waterbutler/server/handlers/crud.py:69 | `str()` of an int reads back as the same int, so the `Content-Length` value carries the size unchanged. |
| `CrudHandler.LastSegment` | waterbutler/server/handlers/crud.py:78 | `os.path.split(path)[-1]` is the longest suffix of the path without '/': it is a suffix, has no '/', and is the whole path or follows a '/'. |
| `CrudHandler.Disposition` | waterbutler/server/handlers/crud.py:71-80 | The disposition fails only when there is no `displayName`, no provider header and no `path`, and then it is a KeyError on `path`. |
| `CrudProperties.DisplayNameFirst` | waterbutler/server/handlers/crud.py:73-74 | A non-empty `displayName` alone decides the disposition, whatever the response headers and path. |
| `CrudProperties.ResponseHeaderSecond` | waterbutler/server/handlers/crud.py:75-76 | Without a `displayName`, a non-empty provider `content-disposition` header is used verbatim, whatever the path. |
| `CrudProperties.PathSegmentLast` | waterbutler/server/handlers/crud.py:62-78 | Without a `displayName` and without a non-empty `content-disposition` among the response headers (or without any response headers), the disposition is made from the last segment of `path`. |
| `CrudProperties.PathSegmentOfJoin` | waterbutler/server/handlers/crud.py:62-78 | In that case, for a path `dir + name` (dir empty or ending in '/', name without '/'), the disposition is made from `name`. |
| `CrudProperties.LastSegmentOfJoin` | waterbutler/server/handlers/crud.py:78 | The last segment of a directory part followed by a name without '/' is that name. |
| `CrudProperties.DispositionScenario` | waterbutler/server/handlers/crud.py:71-80 | For path /a/b/z, header "attachment; filename=y" and override x, the disposition is made from x. Without the override it is the header. Without both it is made from z. |
| `DownloadStream.Pump` | waterbutler/server/handlers/crud.py:82-87 | The chunks written are exactly those read before the first empty one. Each is read, then written, then flushed before the next read. The loop ends on an empty read, or raises exactly when the read after all the stream's chunks raises, with no step after the last flush. |
| `DownloadStream.DownloadLoop` | waterbutler/server/handlers/crud.py:82-87 | The while loop writes the same non-empty prefix with the same read/write/flush pacing, and stops with the read's exception under the same condition. The bytes sent are the concatenation of the written chunks. |
| `DownloadStream.LoopMatchesPump` | waterbutler/server/handlers/crud.py:82-87 | The loop and the recursive definition write the same chunks, take the same steps and raise alike. |
| `CrudProperties.StreamedDownload` | waterbutler/server/handlers/crud.py:62-87 | Whenever a disposition can be formed, with or without `path`, a streamed result whose reads do not raise answers 200 with the content headers. Its body is the chunks read before the first empty one, in order. The trace is the `download` call followed by paced reads, writes and flushes. |
| `CrudProperties.StreamReadFails` | waterbutler/server/handlers/crud.py:82-87 | When a read raises after non-empty chunks, the request ends with that exception. Every chunk before it has been read, written and flushed, and nothing follows the last flush. |
| `CrudProperties.GetMakesNoUploadStep` | waterbutler/server/handlers/crud.py:49-87 | A GET never opens, feeds or awaits an upload stream. |
| `CrudProperties.DeleteMakesNoUploadStep` | waterbutler/server/handlers/crud.py:103-119 | A DELETE never opens, feeds or awaits an upload stream. |
| `CrudHandler.Handle` | waterbutler/server/handlers/crud.py:29-47 | `prepare` adds nothing for GET or DELETE: the outcome is the handler's. A PUT opens the stream, starts the upload, feeds each body chunk in order, then runs `put`, whose response is the request's. Any other method gets 405 with no steps. |
| `CrudHandler.PrepareStream` | waterbutler/server/handlers/crud.py:34-41 | A stream exists iff the method is PUT. Then the stream is opened and the upload is started with the request arguments. Otherwise nothing happens. |
| `CrudHandler.DataReceived` | waterbutler/server/handlers/crud.py:43-47 | With a stream, each body chunk is fed in order. Without one, nothing is done. |
| `CrudProperties.BodyIgnoredWithoutStream` | waterbutler/server/handlers/crud.py:27-47 | For a method other than PUT, the outcome equals the outcome with an empty body, and the trace has no upload step. |
| `CrudHandler.Put` | waterbutler/server/handlers/crud.py:89-101 | End of stream is fed, then the uploader is awaited. Metadata that Tornado's `write` accepts (a str or a dict) gives status 201 iff `created`, else 200, the metadata as body, and one hook, 'create' iff `created`, else 'update'. Any other metadata makes `write` raise TypeError, and no hook is sent. |
| `CrudProperties.UploadOrdering` | waterbutler/server/handlers/crud.py:34-93 | A PUT opens the stream and starts the upload, feeds every body chunk in order, feeds end of stream, and only then awaits the uploader. |
| `CrudProperties.EmptyUploadCompletes` | waterbutler/server/handlers/crud.py:92-93 | With an empty body, end of stream is fed straight after the upload starts, and the uploader is then awaited. |
| `CrudProperties.UploadStatusAndHook` | waterbutler/server/handlers/crud.py:93-101 | A finished upload with a str or dict as metadata answers 201 with 'create' or 200 with 'update', with the metadata as body. Exactly one hook is sent, as the last step. |
| `CrudProperties.UnwritableMetadataSendsNoHook` | waterbutler/server/handlers/crud.py:93-101 | A finished upload whose metadata is a list, None, a bool or a number ends with TypeError from `write`. Awaiting the uploader is the last step, and no hook is sent. |
| `CrudHandler.Delete` | waterbutler/server/handlers/crud.py:103-119 | A path ending in '/' is refused with 400 and an empty trace. Any other path starts with the provider `delete` call. When that call raises, the request ends with its exception after that one call. A successful call without a `path` argument ends with the KeyError on `path`. |
| `CrudHandler.DeleteAsWritten` | waterbutler/server/handlers/crud.py:103-119 | As written, refusing a directory path raises TypeError with an empty trace. For every other path it behaves exactly like the corrected `Delete`. |
| `CrudProperties.DirectoryDeleteRejected` | waterbutler/server/handlers/crud.py:106-108 | A DELETE of a directory path answers 400. It makes no `delete` call and sends no hook. |
| `CrudProperties.DeleteFolderScenario` | waterbutler/server/handlers/crud.py:107-110 | DELETE of "folder/" answers 400 with zero `delete` calls. |
| `CrudProperties.FileDeleted` | waterbutler/server/handlers/crud.py:110-119 | A file path makes exactly one `delete` call and answers 204. It sends one 'delete' hook carrying `path`, and `full_path` or None. |
| `CrudProperties.FailedDeleteSendsNoHook` | waterbutler/server/handlers/crud.py:110-119 | A file DELETE whose provider call raises answers with that exception after exactly one `delete` call, and sends no hook. |
| `CrudProperties.DirectoryDeleteAsWrittenIsNot400` | waterbutler/server/handlers/crud.py:108 | As written, DELETE of "folder/" raises TypeError, not a 400. No provider call is made. |
| `Python.Subscript` | waterbutler/providers/dataverse/metadata.py:19-35 | `raw[key]` gives the stored value for a dict that has the key. It raises KeyError for a dict without it, and TypeError for any other JSON shape. |
| `Python.Str` | waterbutler/providers/dataverse/metadata.py:19 | `str()` leaves a string unchanged, and turns an int into a decimal string that reads back as the int. |
| `DataverseMetadata.Provider` | waterbutler/providers/dataverse/metadata.py:6-8 | Every Dataverse record, file or dataset, reports provider "dataverse". |
| `DataverseMetadata.FileId` | waterbutler/providers/dataverse/metadata.py:17-19 | `file_id` exists iff the raw payload is a dict with an `id`, else TypeError or KeyError('id'). A string id is kept as is; an int id becomes a decimal string that reads back as the id. |
| `DataverseMetadata.FileName` | waterbutler/providers/dataverse/metadata.py:21-23 | `name` is the raw `name` field. Without one it raises KeyError('name'), or TypeError for a non-dict payload. |
| `DataverseMetadata.FilePath` | waterbutler/providers/dataverse/metadata.py:25-27 | `path` exists iff `file_id` does, is `build_path` of it, and otherwise raises `file_id`'s exception. |
| `DataverseMetadata.FileSize` | waterbutler/providers/dataverse/metadata.py:29-31 | `size` is always None. |
| `DataverseMetadata.FileContentType` | waterbutler/providers/dataverse/metadata.py:33-35 | `content_type` is the raw `contentType` field. Without one it raises KeyError('contentType'), or TypeError for a non-dict payload. |
| `DataverseMetadata.FileModified` | waterbutler/providers/dataverse/metadata.py:37-39 | `modified` is always None. |
| `DataverseMetadata.SameIdSamePath` | waterbutler/providers/dataverse/metadata.py:17-27 | Two file records with equal raw `id` have equal `file_id` and `path`, whatever their other fields and versions. |
| `DataverseMetadata.IntegerFileId` | waterbutler/providers/dataverse/metadata.py:17-27 | An integer raw id gives a `file_id` that reads back as the id, and `path` is `build_path` of that `file_id`. |
| `DataverseMetadata.IntegerFileIdsDistinct` | waterbutler/providers/dataverse/metadata.py:17-19 | For integer raw ids, two files have the same `file_id` iff their ids are equal. |
| `DataverseMetadata.FileAttributes` | waterbutler/providers/dataverse/metadata.py:21-39 | `name` and `content_type` are the raw fields, or KeyError when missing. `size` and `modified` are always None. |
| `DataverseMetadata.CanDelete` | waterbutler/providers/dataverse/metadata.py:41-44 | `can_delete` is true iff the dataset version is in {"latest", "draft"}. |
| `DataverseMetadata.CanDeleteVersions` | waterbutler/providers/dataverse/metadata.py:41-44 | Over a spread of version strings, only exact "latest" and "draft" may delete. "LATEST", "Draft", "1.0", "" and near-misses may not. |
| `DataverseMetadata.Extra` | waterbutler/providers/dataverse/metadata.py:46-51 | `extra` exists iff `file_id` does, and is a dict with exactly the keys fileId and canDelete. |
| `DataverseMetadata.ExtraAgrees` | waterbutler/providers/dataverse/metadata.py:46-51 | `extra` exists iff `file_id` does. It has exactly the keys fileId and canDelete, and they equal `file_id` and `can_delete`. |
| `DataverseMetadata.DatafilesOfList` | waterbutler/providers/dataverse/metadata.py:61-62 | Reading `f['datafile']` over a list succeeds iff every element has one. It then gives one datafile per element, in order. Otherwise it raises the error of the first element without one; every earlier element has one. |
| `DataverseMetadata.Datafiles` | waterbutler/providers/dataverse/metadata.py:61-62 | A list of files is read element by element. An empty str or dict gives no files. A non-empty str or dict, and None, a bool or an int, raise TypeError: iterating them yields strings, which cannot be subscripted by a string, or fails outright. |
| `DataverseMetadata.FirstMissingDatafileRaises` | waterbutler/providers/dataverse/metadata.py:62 | For the files `[{}, "x"]` the exception is KeyError('datafile') from the first element, not the later TypeError. A non-empty dict of files raises TypeError. |
| `DataverseMetadata.EntriesOf` | waterbutler/providers/dataverse/metadata.py:62 | One file record per datafile, in order, each with the dataset's version. |
| `DataverseMetadata.NewDataset` | waterbutler/providers/dataverse/metadata.py:56-62 | Construction keeps raw, name and doi. It raises TypeError for a non-dict raw and KeyError without 'files'. For a list of files it succeeds iff every element has a datafile, and then entry i is built from element i's datafile at the dataset's version. |
| `DataverseMetadata.DatasetName` | waterbutler/providers/dataverse/metadata.py:64-66 | A dataset's `name` is the name given to the constructor. |
| `DataverseMetadata.DatasetPath` | waterbutler/providers/dataverse/metadata.py:68-70 | A dataset's `path` is `build_path(doi)`. |
| `DataverseMetadata.Entries` | waterbutler/providers/dataverse/metadata.py:72-74 | `entries` are the file records the constructor built. |
| `DataverseMetadata.EntriesShareCanDelete` | waterbutler/providers/dataverse/metadata.py:56-74 | Every entry of a constructed dataset has the dataset's version, so all share one `can_delete`. |
| `DataverseMetadata.DatasetIdentity` | waterbutler/providers/dataverse/metadata.py:64-70 | A dataset's `name` is the constructor name. Its `path` is `build_path(doi)`, independent of its files and version. Its provider is "dataverse". |
| `DataverseMetadata.SerializeEach` | waterbutler/providers/dataverse/metadata.py:78 | Serialising the entries succeeds iff each entry serialises. It then gives one record per entry, in order. Otherwise it raises the exception of the first entry that fails; every earlier entry serialises. |
| `DataverseMetadata.Serialized` | waterbutler/providers/dataverse/metadata.py:76-79 | With entries, the result is a list whose i-th record is entry i's serialisation. With none, it is the base class's single self-record. |
| `DataverseMetadata.SerializedRecordCount` | waterbutler/providers/dataverse/metadata.py:76-79 | A dataset serialises to one record per entry, or to exactly one record when it has no entries. |

## Left out

- The asyncio/Tornado plumbing is not modelled: `utils.coroutine`, `asyncio.async` scheduling, `future_wrapper` and real concurrency. Ordering is shown by the trace instead.
- `super().prepare()` (authentication and argument set-up in the base handler) is not part of this model. The argument map is an input.
- `ACTION_MAP` is read only by the base handler, which is not part of this model.
- The bodies of `build_path`, the base `serialized()`, `make_disposition` and `RequestStreamReader` live in files that are not part of this model. They are parameters, as described above.
- `str()` of a JSON list or dict (Python's `repr`) is a parameter. JSON numbers are integers only; floats are not modelled.
- `lower()` maps ASCII letters only. No other character lower-cases to a letter of "true" or "false", so parsing `accept_url` is unaffected.
- Backend response headers are looked up by the exact key `content-disposition`. The case-insensitive header map of the HTTP client is treated as already lower-cased.
- Response headers are only those the handler sets. Tornado's defaults, the `Location` header and status of a redirect, and the JSON encoding of `write(metadata)` are Tornado's and not modelled. Which values `write` accepts is modelled; the status Tornado answers after its TypeError is not.
- `settings.CHUNK_SIZE` is not modelled: the stream is the sequence of chunks its reads return, whatever their size.
- Provider exceptions, from `download`, a stream read, `upload` or `delete`, are passed through as `ProviderRaised`. Their mapping to HTTP statuses lives outside the modelled files.
- A stream read can raise only after the stream's listed chunks, so a stream that raises before it would have returned an empty chunk is written as a shorter chunk list followed by the exception.
- Hook delivery (`_send_hook` transport) is recorded as a `HookSent` step only.
- A method other than GET, PUT or DELETE gets Tornado's default 405 in `Handle`. That default is Tornado's.
- `RequestStreamReader` is assumed truthy whenever it exists, so `data_received` feeds every chunk to an open stream.
- tests/providers/test_cloudfiles.py is not modelled. The CloudFiles provider, its authentication and its URL signing are not part of this model.
- Credential refresh, single-flight authentication, signed-URL expiry and cancellation are not modelled. They do not appear in the modelled files.

## Findings

| source | as written | input that shows it | evidently intended | confidence | as-written member | corrected member |
|---|---|---|---|---|---|---|
| waterbutler/server/handlers/crud.py:108 | `web.HTTPError('Deletion of directories is currently not supported', status_code=400)`. Tornado's `HTTPError.__init__` takes `status_code` as its first positional parameter, so it gets two values for it and raises TypeError. The request then fails as an unhandled exception (Tornado answers 500), not with 400. | DELETE with path "folder/" | Refuse with status 400 and the message as log text, for example `web.HTTPError(400, 'Deletion of directories is currently not supported')` | high that TypeError is raised, given Tornado's `HTTPError` signature; not executed | `CrudHandler.DeleteAsWritten` (exhibited by `CrudProperties.DirectoryDeleteAsWrittenIsNot400`) | `CrudHandler.Delete` (proved by `CrudProperties.DirectoryDeleteRejected`) |

=== FILE: crud_handler.dfy ===
/**
 * The decision rules of the CRUD request handler (`CRUDHandler`): how GET,
 * PUT and DELETE turn a request and the provider's behaviour into a response
 * and a trace of provider calls, stream steps and hooks.
 *
 * `makeDisposition` is the helper that formats a `Content-Disposition` value
 * from a file name (section 4 of RFC 6266); its formatting is not part of
 * this model, so every property holds whatever it returns.
 */
module CrudHandler {
  import opened Wrappers
  import opened Python
  import opened CrudTypes
  import DownloadStream

  /** `TRUTH_MAP`: the only accepted spellings of `accept_url`, after lower-casing. */
  const TruthMap: map<string, bool> := map["true" := true, "false" := false]

  /** `STREAM_METHODS`: the methods whose body is streamed to the provider. */
  const StreamMethods: set<string> := {"PUT"}

  // ---------------------------------------------------------------------
  // accept_url

  /**
   * `s` spells the lower-case ASCII word `word` in any mix of cases:
   * each character is the letter itself or its upper-case form.
   */
  ghost predicate SpellsIgnoringCase(s: string, word: string) {
    |s| == |word| && forall i :: 0 <= i < |s| ==> s[i] == word[i] || s[i] == UpperChar(word[i])
  }

  predicate LowerAsciiWord(word: string) {
    forall i :: 0 <= i < |word| ==> 'a' <= word[i] <= 'z'
  }

  /** Lower-casing yields a lower-case word exactly when the input spells it in some mix of cases. */
  lemma LowerIsCaseInsensitive(s: string, word: string)
    requires LowerAsciiWord(word)
    ensures Lower(s) == word <==> SpellsIgnoringCase(s, word)
  {
    if Lower(s) == word {
      forall i | 0 <= i < |s|
        ensures s[i] == word[i] || s[i] == UpperChar(word[i])
      {
        assert LowerChar(s[i]) == word[i];
      }
    }
    if SpellsIgnoringCase(s, word) {
      forall i | 0 <= i < |s|
        ensures Lower(s)[i] == word[i]
      {
        assert s[i] == word[i] || s[i] == UpperChar(word[i]);
      }
    }
  }

  /**
   * `TRUTH_MAP[arguments.get('accept_url', 'true').lower()]`: an absent
   * value means true, any casing of "true" or "false" means that value, and
   * anything else is rejected with status 400.
   */
  function ParseAcceptUrl(args: map<string, string>): (r: Result<bool, HandlerError>)
    ensures r == Ok(true) <==> "accept_url" !in args || SpellsIgnoringCase(args["accept_url"], "true")
    ensures r == Ok(false) <==> "accept_url" in args && SpellsIgnoringCase(args["accept_url"], "false")
    ensures r.Err? ==> r.error == HttpError(400)
  {
    var value := if "accept_url" in args then args["accept_url"] else "true";
    LowerIsCaseInsensitive(value, "true");
    LowerIsCaseInsensitive(value, "false");
    var key := Lower(value);
    if key in TruthMap then Ok(TruthMap[key]) else Err(HttpError(400))
  }

  // ---------------------------------------------------------------------
  // Response headers

  /**
   * `os.path.split(path)[-1]`: the part after the last '/', the whole path
   * when it has none, and empty when the path ends in '/'.
   */
  function LastSegment(path: string): (tail: string)
    ensures |tail| <= |path| && path[|path| - |tail|..] == tail
    ensures forall i :: 0 <= i < |tail| ==> tail[i] != '/'
    ensures |tail| < |path| ==> path[|path| - |tail| - 1] == '/'
    decreases |path|
  {
    if |path| == 0 || path[|path| - 1] == '/' then ""
    else LastSegment(path[..|path| - 1]) + [path[|path| - 1]]
  }

  /** Python truthiness of `mapping.get(key)` for a string-valued map: present and non-empty. */
  predicate Truthy(m: map<string, string>, key: string) {
    key in m && m[key] != ""
  }

  /**
   * The `Content-Disposition` value, from whichever is truthy first: the
   * `displayName` argument (formatted), the provider response's own
   * `content-disposition` header (verbatim), or the last segment of `path`
   * (formatted). A result without a `response` has no headers. Reading a
   * missing `path` raises KeyError.
   */
  function Disposition(args: map<string, string>, responseHeaders: Option<map<string, string>>,
                       makeDisposition: string -> string): (r: Result<string, HandlerError>)
    ensures r.Err? <==> !Truthy(args, "displayName") && !Truthy(ResponseHeaders(responseHeaders), "content-disposition") && "path" !in args
    ensures r.Err? ==> r.error == MissingArgument("path")
  {
    var headers := ResponseHeaders(responseHeaders);
    if Truthy(args, "displayName") then Ok(makeDisposition(args["displayName"]))
    else if Truthy(headers, "content-disposition") then Ok(headers["content-disposition"])
    else if "path" in args then Ok(makeDisposition(LastSegment(args["path"])))
    else Err(MissingArgument("path"))
  }

  /** `result.response.headers`, or `{}` when the result has no `response`. */
  function ResponseHeaders(responseHeaders: Option<map<string, string>>): (r: map<string, string>)
    ensures responseHeaders.Some? ==> r == responseHeaders.value
    ensures responseHeaders.None? ==> r == map[]
  {
    match responseHeaders
    case Some(h) => h
    case None => map[]
  }

  /** Python truthiness of `result.size`: known and non-zero. */
  predicate SizeIsTruthy(size: Option<int>) {
    size.Some? && size.value != 0
  }

  /**
   * The headers set on a streamed download: `Content-Type` always,
   * `Content-Length` exactly when the size is truthy (as its decimal string,
   * which reads back as the size), and `Content-Disposition`.
   */
  function ContentHeaders(contentType: string, size: Option<int>, disposition: string): (h: map<string, string>)
    ensures h.Keys == {"Content-Type", "Content-Disposition"} + (if SizeIsTruthy(size) then {"Content-Length"} else {})
    ensures h["Content-Type"] == contentType
    ensures h["Content-Disposition"] == disposition
    ensures "Content-Length" in h ==> ParseInt(h["Content-Length"]) == Some(size.value)
  {
    var typed := map["Content-Type" := contentType];
    var sized := if SizeIsTruthy(size) then
        IntToStringRoundTrip(size.value);
        typed["Content-Length" := IntToString(size.value)]
      else typed;
    sized["Content-Disposition" := disposition]
  }

  // ---------------------------------------------------------------------
  // Handler methods

  /** The keyword arguments `download` is called with: the request's, `accept_url` converted. */
  function DownloadArgs(args: map<string, string>, acceptUrl: bool): map<string, Arg> {
    Lift(args)["accept_url" := Flag(acceptUrl)]
  }

  /**
   * `get`: validate `accept_url`, call `download` once, then either redirect
   * to the returned URL or set the headers and stream the chunks read.
   */
  function Get(args: map<string, string>, download: DownloadResult, makeDisposition: string -> string): (o: Outcome)
    ensures ParseAcceptUrl(args).Err? ==> o == Outcome(Err(HttpError(400)), [])
    ensures ParseAcceptUrl(args).Ok? ==>
      && |o.trace| >= 1 && o.trace[0] == DownloadCalled(DownloadArgs(args, ParseAcceptUrl(args).value))
      && forall i :: 1 <= i < |o.trace| ==> DownloadStream.IsStreamStep(o.trace[i])
    ensures ParseAcceptUrl(args).Ok? && download.DownloadRaised? ==>
      o == Outcome(Err(ProviderRaised(download.reason)), [DownloadCalled(DownloadArgs(args, ParseAcceptUrl(args).value))])
    ensures ParseAcceptUrl(args).Ok? && download.Streamed? ==>
      var served := ServeStream(args, download.contentType, download.size, download.responseHeaders,
                                download.stream, download.readError, makeDisposition);
      o == Outcome(served.response, [DownloadCalled(DownloadArgs(args, ParseAcceptUrl(args).value))] + served.trace)
  {
    match ParseAcceptUrl(args)
    case Err(e) => Outcome(Err(e), [])
    case Ok(acceptUrl) =>
      var called := [DownloadCalled(DownloadArgs(args, acceptUrl))];
      match download
      case DownloadRaised(reason) => Outcome(Err(ProviderRaised(reason)), called)
      case SignedUrl(url) => Outcome(Ok(Redirect(url)), called)
      case Streamed(contentType, size, responseHeaders, stream, readError) =>
        var served := ServeStream(args, contentType, size, responseHeaders, stream, readError, makeDisposition);
        Outcome(served.response, called + served.trace)
  }

  /**
   * The part of `get` after a stream came back: set the content headers,
   * then copy the stream to the response chunk by chunk. A read that raises
   * ends the request with that exception, after the chunks before it were
   * already written and flushed. The trace holds only reads, writes and
   * flushes.
   */
  function ServeStream(args: map<string, string>, contentType: string, size: Option<int>,
                       responseHeaders: Option<map<string, string>>, stream: seq<Chunk>,
                       readError: Option<string>, makeDisposition: string -> string): (o: Outcome)
    ensures forall i :: 0 <= i < |o.trace| ==> DownloadStream.IsStreamStep(o.trace[i])
    ensures Disposition(args, responseHeaders, makeDisposition).Err? ==>
      o == Outcome(Err(Disposition(args, responseHeaders, makeDisposition).error), [])
    ensures Disposition(args, responseHeaders, makeDisposition).Ok? ==>
      o.trace == DownloadStream.Pump(stream, readError).trace
      && (o.response.Err? <==> DownloadStream.Pump(stream, readError).failure.Some?)
      && (o.response.Err? ==> o.response.error == ProviderRaised(DownloadStream.Pump(stream, readError).failure.value))
  {
    match Disposition(args, responseHeaders, makeDisposition)
    case Err(e) => Outcome(Err(e), [])
    case Ok(disposition) =>
      var transfer := DownloadStream.Pump(stream, readError);
      DownloadStream.PacedStepsOnly(transfer.written, transfer.trace, transfer.failure.None?);
      match transfer.failure
      case Some(reason) => Outcome(Err(ProviderRaised(reason)), transfer.trace)
      case None =>
        var body := seq(|transfer.written|, i requires 0 <= i < |transfer.written| => Bytes(transfer.written[i]));
        Outcome(Ok(Reply(200, ContentHeaders(contentType, size, disposition), body)), transfer.trace)
  }

  /**
   * What Tornado's `write` accepts: bytes, str or dict. Decoded JSON has no
   * bytes, so a str or a dict; any other value makes `write` raise TypeError.
   */
  predicate Writable(v: Json) {
    v.JStr? || v.JObject?
  }

  /**
   * `put`: signal end of stream, then await the uploader; answer 201 when the
   * object was created and the default 200 otherwise, with the metadata as
   * the body, and send a 'create' or 'update' hook carrying the metadata.
   * Metadata that `write` rejects ends the request with TypeError before the
   * hook is sent.
   */
  function Put(upload: UploadResult): (o: Outcome)
    ensures |o.trace| >= 2 && o.trace[..2] == [EofFed, UploadAwaited]
    ensures o.response.Ok? <==> upload.Uploaded? && Writable(upload.metadata)
    ensures upload.Uploaded? && !Writable(upload.metadata) ==>
      o == Outcome(Err(UnhandledException("TypeError")), [EofFed, UploadAwaited])
    ensures upload.Uploaded? && Writable(upload.metadata) ==>
      && o.response.value.Reply?
      && (o.response.value.status == 201 <==> upload.created)
      && (o.response.value.status == 200 <==> !upload.created)
      && o.response.value.body == [Document(upload.metadata)]
      && o.trace[2..] == [HookSent(if upload.created then "create" else "update", upload.metadata)]
    ensures upload.UploadRaised? ==> o.trace == [EofFed, UploadAwaited]
  {
    var awaited := [EofFed, UploadAwaited];
    match upload
    case UploadRaised(reason) => Outcome(Err(ProviderRaised(reason)), awaited)
    case Uploaded(metadata, created) =>
      if !Writable(metadata) then Outcome(Err(UnhandledException("TypeError")), awaited)
      else
        var status := if created then 201 else 200;
        var action := if created then "create" else "update";
        Outcome(Ok(Reply(status, map[], [Document(metadata)])), awaited + [HookSent(action, metadata)])
  }

  /** Python's `str.endswith('/')`. */
  predicate EndsWithSlash(s: string) {
    |s| > 0 && s[|s| - 1] == '/'
  }

  /** The payload of the 'delete' hook: `{'path': ..., 'full_path': ...}`, None when `full_path` is absent. */
  function DeleteHookPayload(path: string, args: map<string, string>): Json {
    JObject(map["path" := JStr(path),
                "full_path" := if "full_path" in args then JStr(args["full_path"]) else JNull])
  }

  /**
   * `delete`, parameterised by what rejecting a directory path raises:
   * a path ending in '/' is refused before any provider call; otherwise
   * `delete` is called once, the status is 204 and a 'delete' hook is sent.
   * The hook reads `path` with `[]`, so a request without one raises
   * KeyError after the provider has deleted.
   */
  function DeleteWith(rejection: HandlerError, args: map<string, string>, delete: DeleteResult): Outcome {
    var path := if "path" in args then args["path"] else "";
    if EndsWithSlash(path) then Outcome(Err(rejection), [])
    else
      var called := [DeleteCalled(Lift(args))];
      match delete
      case DeleteRaised(reason) => Outcome(Err(ProviderRaised(reason)), called)
      case Deleted =>
        if "path" !in args then Outcome(Err(MissingArgument("path")), called)
        else Outcome(Ok(Reply(204, map[], [])), called + [HookSent("delete", DeleteHookPayload(args["path"], args))])
  }

  /**
   * `delete` as written: the rejection is built as
   * `web.HTTPError(message, status_code=400)`, which hands Tornado's
   * `HTTPError` its `status_code` both positionally and by keyword, so the
   * constructor raises TypeError instead of producing a 400.
   */
  function DeleteAsWritten(args: map<string, string>, delete: DeleteResult): (o: Outcome)
    ensures EndsWithSlash(if "path" in args then args["path"] else "") ==>
      o == Outcome(Err(UnhandledException("TypeError")), [])
    ensures !EndsWithSlash(if "path" in args then args["path"] else "") ==> o == Delete(args, delete)
  {
    DeleteWith(UnhandledException("TypeError"), args, delete)
  }

  /**
   * `delete` as intended: a directory path is rejected with status 400;
   * any other path is handed to the provider once, and the exception it
   * raises, if any, ends the request before a hook is sent.
   */
  function Delete(args: map<string, string>, delete: DeleteResult): (o: Outcome)
    ensures EndsWithSlash(if "path" in args then args["path"] else "") ==>
      o == Outcome(Err(HttpError(400)), [])
    ensures !EndsWithSlash(if "path" in args then args["path"] else "") ==>
      |o.trace| >= 1 && o.trace[0] == DeleteCalled(Lift(args))
    ensures !EndsWithSlash(if "path" in args then args["path"] else "") && delete.DeleteRaised? ==>
      o == Outcome(Err(ProviderRaised(delete.reason)), [DeleteCalled(Lift(args))])
    ensures "path" !in args && delete.Deleted? ==>
      o == Outcome(Err(MissingArgument("path")), [DeleteCalled(Lift(args))])
  {
    DeleteWith(HttpError(400), args, delete)
  }

  // ---------------------------------------------------------------------
  // Request lifecycle

  /** Whether a request body stream exists: `self.stream` is a reader or None. */
  datatype StreamState = NoStream | RequestStream

  datatype Prepared = Prepared(stream: StreamState, trace: seq<Event>)

  /**
   * `prepare_stream`: for a streamed method, open the request stream and
   * start the provider's upload against it with the request's arguments;
   * for every other method there is no stream.
   */
  function PrepareStream(verb: string, args: map<string, string>): (p: Prepared)
    ensures p.stream == RequestStream <==> verb in StreamMethods
    ensures p.stream == RequestStream ==> p.trace == [StreamOpened, UploadStarted(Lift(args))]
    ensures p.stream == NoStream ==> p.trace == []
  {
    if verb in StreamMethods then Prepared(RequestStream, [StreamOpened, UploadStarted(Lift(args))])
    else Prepared(NoStream, [])
  }

  /** `data_received`, once per body chunk: fed to the stream when there is one, dropped otherwise. */
  function DataReceived(stream: StreamState, body: seq<Chunk>): (trace: seq<Event>)
    ensures stream == NoStream ==> trace == []
    ensures stream == RequestStream ==> |trace| == |body| && forall i :: 0 <= i < |body| ==> trace[i] == DataFed(body[i])
  {
    match stream
    case NoStream => []
    case RequestStream => seq(|body|, i requires 0 <= i < |body| => DataFed(body[i]))
  }

  /**
   * One request from `prepare` to the method handler: the stream is set up,
   * every body chunk goes through `data_received`, then GET, PUT or DELETE
   * runs; any other method gets Tornado's 405.
   */
  function Handle(request: Request, provider: Provider, makeDisposition: string -> string): (o: Outcome)
    ensures request.verb == "GET" ==> o == Get(request.args, provider.download, makeDisposition)
    ensures request.verb == "DELETE" ==> o == Delete(request.args, provider.delete)
    ensures request.verb == "PUT" ==>
      && o.response == Put(provider.upload).response
      && o.trace == [StreamOpened, UploadStarted(Lift(request.args))]
                    + DataReceived(RequestStream, request.body) + Put(provider.upload).trace
    ensures request.verb !in {"GET", "PUT", "DELETE"} ==> o == Outcome(Err(HttpError(405)), [])
  {
    var prepared := PrepareStream(request.verb, request.args);
    var fed := DataReceived(prepared.stream, request.body);
    var handled :=
      if request.verb == "GET" then Get(request.args, provider.download, makeDisposition)
      else if request.verb == "PUT" then Put(provider.upload)
      else if request.verb == "DELETE" then Delete(request.args, provider.delete)
      else Outcome(Err(HttpError(405)), []);
    Outcome(handled.response, prepared.trace + fed + handled.trace)
  }
}

=== FILE: crud_properties.dfy ===
/**
 * Properties of whole requests: what the CRUD handler answers, which
 * provider calls it makes and in which order, and which hook it sends.
 */
module CrudProperties {
  import opened Wrappers
  import opened Python
  import opened CrudTypes
  import opened CrudHandler
  import DownloadStream

  /** How many times the trace calls the provider's `delete`. */
  function DeleteCalls(trace: seq<Event>): nat {
    if |trace| == 0 then 0 else (if trace[0].DeleteCalled? then 1 else 0) + DeleteCalls(trace[1..])
  }

  /** How many hooks the trace sends. */
  function HooksSent(trace: seq<Event>): nat {
    if |trace| == 0 then 0 else (if trace[0].HookSent? then 1 else 0) + HooksSent(trace[1..])
  }

  // ---------------------------------------------------------------------
  // GET

  /** An unrecognised `accept_url` is answered with 400 before the provider is asked for anything. */
  lemma BadAcceptUrlRejected(request: Request, provider: Provider, makeDisposition: string -> string)
    requires request.verb == "GET"
    requires "accept_url" in request.args
    requires !SpellsIgnoringCase(request.args["accept_url"], "true")
    requires !SpellsIgnoringCase(request.args["accept_url"], "false")
    ensures Handle(request, provider, makeDisposition) == Outcome(Err(HttpError(400)), [])
  {
  }

  /**
   * A URL from `download` becomes a redirect to exactly that URL: no headers
   * are set and nothing is read or written.
   */
  lemma UrlBecomesRedirect(args: map<string, string>, url: string, makeDisposition: string -> string)
    requires ParseAcceptUrl(args).Ok?
    ensures Get(args, SignedUrl(url), makeDisposition)
         == Outcome(Ok(Redirect(url)), [DownloadCalled(DownloadArgs(args, ParseAcceptUrl(args).value))])
  {
  }

  /**
   * A streamed download whose reads do not raise answers 200 with the
   * content headers, writes exactly the chunks read before the first empty
   * one, and paces each write with a flush before the next read; `download`
   * is called once, first.
   */
  lemma StreamedDownload(args: map<string, string>, contentType: string, size: Option<int>,
                         responseHeaders: Option<map<string, string>>, stream: seq<Chunk>,
                         makeDisposition: string -> string)
    requires ParseAcceptUrl(args).Ok?
    requires Truthy(args, "displayName") || Truthy(ResponseHeaders(responseHeaders), "content-disposition") || "path" in args
    ensures var o := Get(args, Streamed(contentType, size, responseHeaders, stream, None), makeDisposition);
      && o.response.Ok? && o.response.value.Reply?
      && o.response.value.status == 200
      && o.response.value.headers
         == ContentHeaders(contentType, size, Disposition(args, responseHeaders, makeDisposition).value)
      && exists written: seq<Chunk> ::
           && DownloadStream.WrittenPrefix(stream, written)
           && |o.response.value.body| == |written|
           && (forall i :: 0 <= i < |written| ==> o.response.value.body[i] == Bytes(written[i]))
           && o.trace == [DownloadCalled(DownloadArgs(args, ParseAcceptUrl(args).value))] + o.trace[1..]
           && DownloadStream.PacedTrace(written, o.trace[1..], true)
  {
    var o := Get(args, Streamed(contentType, size, responseHeaders, stream, None), makeDisposition);
    var t := DownloadStream.Pump(stream, None);
    ServedWithoutFailure(args, contentType, size, responseHeaders, stream, makeDisposition);
    assert o.trace[1..] == t.trace;
    assert DownloadStream.WrittenPrefix(stream, t.written);
    assert DownloadStream.PacedTrace(t.written, o.trace[1..], true);
  }

  /** The reply `ServeStream` builds when no read raises: each written chunk becomes one body part. */
  lemma ServedWithoutFailure(args: map<string, string>, contentType: string, size: Option<int>,
                             responseHeaders: Option<map<string, string>>, stream: seq<Chunk>,
                             makeDisposition: string -> string)
    requires Truthy(args, "displayName") || Truthy(ResponseHeaders(responseHeaders), "content-disposition") || "path" in args
    ensures var o := ServeStream(args, contentType, size, responseHeaders, stream, None, makeDisposition);
      var written := DownloadStream.Pump(stream, None).written;
      && o.response.Ok? && o.response.value.Reply?
      && o.response.value.status == 200
      && o.response.value.headers
         == ContentHeaders(contentType, size, Disposition(args, responseHeaders, makeDisposition).value)
      && |o.response.value.body| == |written|
      && (forall i :: 0 <= i < |written| ==> o.response.value.body[i] == Bytes(written[i]))
      && o.trace == DownloadStream.Pump(stream, None).trace
  {
    assert DownloadStream.Pump(stream, None).failure == None;
  }

  /**
   * A stream that returns an empty chunk ends the loop there: a read that
   * would raise after it is never made, and the download answers 200.
   */
  lemma EmptyChunkHidesReadError(args: map<string, string>, contentType: string, size: Option<int>,
                                 responseHeaders: Option<map<string, string>>, stream: seq<Chunk>, k: nat, reason: string,
                                 makeDisposition: string -> string)
    requires ParseAcceptUrl(args).Ok?
    requires Truthy(args, "displayName") || Truthy(ResponseHeaders(responseHeaders), "content-disposition") || "path" in args
    requires k < |stream| && stream[k] == []
    ensures var o := Get(args, Streamed(contentType, size, responseHeaders, stream, Some(reason)), makeDisposition);
      o.response.Ok? && o.response.value.Reply? && o.response.value.status == 200
  {
    var t := DownloadStream.Pump(stream, Some(reason));
    DownloadStream.PrefixStopsAtEmpty(stream, t.written, k);
    assert t.failure.None?;
  }

  /**
   * A read that raises after the stream's chunks ends the download with
   * that exception: every earlier chunk has been written and flushed, and
   * no read follows the last flush.
   */
  lemma StreamReadFails(args: map<string, string>, contentType: string, size: Option<int>,
                        responseHeaders: Option<map<string, string>>, stream: seq<Chunk>, reason: string,
                        makeDisposition: string -> string)
    requires ParseAcceptUrl(args).Ok?
    requires Truthy(args, "displayName") || Truthy(ResponseHeaders(responseHeaders), "content-disposition") || "path" in args
    requires forall i :: 0 <= i < |stream| ==> stream[i] != []
    ensures var o := Get(args, Streamed(contentType, size, responseHeaders, stream, Some(reason)), makeDisposition);
      && o.response == Err(ProviderRaised(reason))
      && o.trace == [DownloadCalled(DownloadArgs(args, ParseAcceptUrl(args).value))] + o.trace[1..]
      && DownloadStream.PacedTrace(stream, o.trace[1..], false)
  {
    var o := Get(args, Streamed(contentType, size, responseHeaders, stream, Some(reason)), makeDisposition);
    var served := ServeStream(args, contentType, size, responseHeaders, stream, Some(reason), makeDisposition);
    var t := DownloadStream.Pump(stream, Some(reason));
    assert o.trace[1..] == served.trace == t.trace;
    assert t.written == stream;
  }

  /** With a `displayName`, it alone decides the disposition: the response headers and the path do not matter. */
  lemma DisplayNameFirst(args: map<string, string>, h1: Option<map<string, string>>, h2: Option<map<string, string>>,
                         makeDisposition: string -> string)
    requires Truthy(args, "displayName")
    ensures Disposition(args, h1, makeDisposition) == Disposition(args - {"path"}, h2, makeDisposition)
         == Ok(makeDisposition(args["displayName"]))
  {
  }

  /** Without a `displayName`, the provider's own header is used verbatim, whatever the path. */
  lemma ResponseHeaderSecond(args: map<string, string>, headers: map<string, string>, makeDisposition: string -> string)
    requires !Truthy(args, "displayName")
    requires Truthy(headers, "content-disposition")
    ensures Disposition(args, Some(headers), makeDisposition)
         == Disposition(args - {"path"}, Some(headers), makeDisposition)
         == Ok(headers["content-disposition"])
  {
  }

  /**
   * Otherwise the disposition is made from the last segment of `path`,
   * whatever else the response headers hold; a result without response
   * headers behaves as one whose headers have no `content-disposition`.
   */
  lemma PathSegmentLast(args: map<string, string>, responseHeaders: Option<map<string, string>>,
                        makeDisposition: string -> string)
    requires !Truthy(args, "displayName")
    requires !Truthy(ResponseHeaders(responseHeaders), "content-disposition")
    requires "path" in args
    ensures Disposition(args, responseHeaders, makeDisposition) == Ok(makeDisposition(LastSegment(args["path"])))
  {
  }

  /**
   * For a path `dir + name`, where `dir` is empty or ends in '/' and `name`
   * has no '/', the disposition is made from `name`.
   */
  lemma PathSegmentOfJoin(args: map<string, string>, responseHeaders: Option<map<string, string>>,
                          dir: string, name: string, makeDisposition: string -> string)
    requires !Truthy(args, "displayName")
    requires !Truthy(ResponseHeaders(responseHeaders), "content-disposition")
    requires dir == "" || EndsWithSlash(dir)
    requires forall i :: 0 <= i < |name| ==> name[i] != '/'
    ensures Disposition(args["path" := dir + name], responseHeaders, makeDisposition) == Ok(makeDisposition(name))
  {
    var joined := args["path" := dir + name];
    assert !Truthy(joined, "displayName");
    PathSegmentLast(joined, responseHeaders, makeDisposition);
    LastSegmentOfJoin(dir, name);
  }

  /** The last segment of `dir + name` is `name` when `dir` ends a directory and `name` has no '/'. */
  lemma LastSegmentOfJoin(dir: string, name: string)
    requires dir == "" || EndsWithSlash(dir)
    requires forall i :: 0 <= i < |name| ==> name[i] != '/'
    ensures LastSegment(dir + name) == name
  {
    var path := dir + name;
    assert path[|path| - |name|..] == name;
  }

  /** The precedence on a concrete request: path /a/b/z, provider header naming y, override x. */
  lemma DispositionScenario(makeDisposition: string -> string)
    ensures var header := map["content-disposition" := "attachment; filename=y"];
      && Disposition(map["path" := "/a/b/z", "displayName" := "x"], Some(header), makeDisposition) == Ok(makeDisposition("x"))
      && Disposition(map["path" := "/a/b/z"], Some(header), makeDisposition) == Ok("attachment; filename=y")
      && Disposition(map["path" := "/a/b/z"], None, makeDisposition) == Ok(makeDisposition("z"))
  {
    assert LastSegment("/a/b/z") == "z" by {
      assert "/a/b/z"[..5] == "/a/b/";
      assert LastSegment("/a/b/") == "";
    }
  }

  // ---------------------------------------------------------------------
  // PUT

  /**
   * An upload opens the stream and starts the uploader first, feeds every
   * body chunk in order, signals end of stream and only then awaits the
   * uploader; the response and hook follow from `created`.
   */
  lemma UploadOrdering(request: Request, provider: Provider, makeDisposition: string -> string)
    requires request.verb == "PUT"
    ensures var o := Handle(request, provider, makeDisposition);
      var n := |request.body|;
      && |o.trace| >= n + 4
      && o.trace[..2] == [StreamOpened, UploadStarted(Lift(request.args))]
      && (forall i :: 0 <= i < n ==> o.trace[2 + i] == DataFed(request.body[i]))
      && o.trace[2 + n] == EofFed
      && o.trace[3 + n] == UploadAwaited
      && o.trace[n + 4..] == Put(provider.upload).trace[2..]
      && o.response == Put(provider.upload).response
  {
  }

  /** An upload with an empty body still ends: end of stream is fed straight after the uploader starts. */
  lemma EmptyUploadCompletes(args: map<string, string>, provider: Provider, makeDisposition: string -> string)
    ensures Handle(Request("PUT", args, []), provider, makeDisposition).trace[..4]
         == [StreamOpened, UploadStarted(Lift(args)), EofFed, UploadAwaited]
  {
  }

  /** A finished upload answers 201 and sends 'create' iff the object was created, otherwise 200 and 'update'. */
  lemma UploadStatusAndHook(request: Request, provider: Provider, makeDisposition: string -> string)
    requires request.verb == "PUT" && provider.upload.Uploaded? && Writable(provider.upload.metadata)
    ensures var o := Handle(request, provider, makeDisposition);
      && o.response == Ok(Reply(if provider.upload.created then 201 else 200, map[], [Document(provider.upload.metadata)]))
      && o.trace[|o.trace| - 1]
         == HookSent(if provider.upload.created then "create" else "update", provider.upload.metadata)
      && HooksSent(o.trace) == 1
  {
    var o := Handle(request, provider, makeDisposition);
    var fed := DataReceived(RequestStream, request.body);
    var prefix := [StreamOpened, UploadStarted(Lift(request.args))] + fed + [EofFed, UploadAwaited];
    var hook := HookSent(if provider.upload.created then "create" else "update", provider.upload.metadata);
    assert o.trace == prefix + [hook];
    forall i | 0 <= i < |prefix|
      ensures !prefix[i].HookSent?
    {
      if 2 <= i < 2 + |fed| {
        assert prefix[i] == fed[i - 2];
      }
    }
    NoHooks(prefix);
    HooksAppend(prefix, hook);
  }

  /**
   * Metadata that `write` rejects (a list, None, a bool or a number) ends the
   * upload with TypeError after the uploader was awaited, and no hook is sent.
   */
  lemma UnwritableMetadataSendsNoHook(request: Request, provider: Provider, makeDisposition: string -> string)
    requires request.verb == "PUT" && provider.upload.Uploaded? && !Writable(provider.upload.metadata)
    ensures var o := Handle(request, provider, makeDisposition);
      && o.response == Err(UnhandledException("TypeError"))
      && o.trace[|o.trace| - 1] == UploadAwaited
      && HooksSent(o.trace) == 0
  {
    var o := Handle(request, provider, makeDisposition);
    var fed := DataReceived(RequestStream, request.body);
    var prefix := [StreamOpened, UploadStarted(Lift(request.args))] + fed + [EofFed, UploadAwaited];
    assert o.trace == prefix;
    forall i | 0 <= i < |prefix|
      ensures !prefix[i].HookSent?
    {
      if 2 <= i < 2 + |fed| {
        assert prefix[i] == fed[i - 2];
      }
    }
    NoHooks(prefix);
  }

  lemma {:induction false} HooksAppend(trace: seq<Event>, e: Event)
    ensures HooksSent(trace + [e]) == HooksSent(trace) + (if e.HookSent? then 1 else 0)
    decreases |trace|
  {
    if |trace| > 0 {
      assert (trace + [e])[1..] == trace[1..] + [e];
      HooksAppend(trace[1..], e);
    }
  }

  lemma {:induction false} NoHooks(trace: seq<Event>)
    requires forall i :: 0 <= i < |trace| ==> !trace[i].HookSent?
    ensures HooksSent(trace) == 0
    decreases |trace|
  {
    if |trace| > 0 {
      NoHooks(trace[1..]);
    }
  }

  // ---------------------------------------------------------------------
  // Methods without a streamed body

  /**
   * Only PUT opens a stream: for any other method the body is dropped by
   * `data_received`, so the outcome is the one for an empty body, and no
   * upload is started or fed.
   */
  lemma BodyIgnoredWithoutStream(request: Request, provider: Provider, makeDisposition: string -> string)
    requires request.verb != "PUT"
    ensures Handle(request, provider, makeDisposition) == Handle(request.(body := []), provider, makeDisposition)
    ensures var o := Handle(request, provider, makeDisposition);
      forall i :: 0 <= i < |o.trace| ==> !IsUploadStep(o.trace[i])
  {
    var o := Handle(request, provider, makeDisposition);
    var prepared := PrepareStream(request.verb, request.args);
    assert prepared.stream == NoStream && prepared.trace == [];
    assert DataReceived(prepared.stream, request.body) == DataReceived(prepared.stream, []) == [];
    if request.verb == "GET" {
      assert o == Get(request.args, provider.download, makeDisposition);
      GetMakesNoUploadStep(request.args, provider.download, makeDisposition);
    } else if request.verb == "DELETE" {
      assert o == Delete(request.args, provider.delete);
      DeleteMakesNoUploadStep(request.args, provider.delete);
    } else {
      assert o.trace == [];
    }
  }

  /** A GET calls `download` and then only reads, writes and flushes. */
  lemma GetMakesNoUploadStep(args: map<string, string>, download: DownloadResult, makeDisposition: string -> string)
    ensures var o := Get(args, download, makeDisposition);
      forall i :: 0 <= i < |o.trace| ==> !IsUploadStep(o.trace[i])
  {
    var o := Get(args, download, makeDisposition);
    forall i | 0 <= i < |o.trace|
      ensures !IsUploadStep(o.trace[i])
    {
      if i > 0 {
        assert DownloadStream.IsStreamStep(o.trace[i]);
      }
    }
  }

  /** A DELETE only calls the provider and sends its hook. */
  lemma DeleteMakesNoUploadStep(args: map<string, string>, delete: DeleteResult)
    ensures var o := Delete(args, delete);
      forall i :: 0 <= i < |o.trace| ==> !IsUploadStep(o.trace[i])
  {
    var o := Delete(args, delete);
    assert forall i :: 0 <= i < |o.trace| ==> o.trace[i].DeleteCalled? || o.trace[i].HookSent?;
  }

  /** The steps that belong to an upload: the stream, the uploader and their ordering. */
  predicate IsUploadStep(e: Event) {
    e.StreamOpened? || e.UploadStarted? || e.DataFed? || e.EofFed? || e.UploadAwaited?
  }

  // ---------------------------------------------------------------------
  // DELETE

  /** A directory path is refused with 400: the provider's `delete` is never called and no hook is sent. */
  lemma DirectoryDeleteRejected(request: Request, provider: Provider, makeDisposition: string -> string)
    requires request.verb == "DELETE"
    requires "path" in request.args && EndsWithSlash(request.args["path"])
    ensures Handle(request, provider, makeDisposition).response == Err(HttpError(400))
    ensures DeleteCalls(Handle(request, provider, makeDisposition).trace) == 0
    ensures HooksSent(Handle(request, provider, makeDisposition).trace) == 0
  {
  }

  /** Deleting "folder/" is refused, with no call to the provider. */
  lemma DeleteFolderScenario(provider: Provider, makeDisposition: string -> string)
    ensures var o := Handle(Request("DELETE", map["path" := "folder/"], []), provider, makeDisposition);
      o.response == Err(HttpError(400)) && DeleteCalls(o.trace) == 0
  {
  }

  /**
   * A file path is deleted with exactly one provider call, answered with 204,
   * and announced by one 'delete' hook carrying `path` and `full_path`.
   */
  lemma FileDeleted(request: Request, provider: Provider, makeDisposition: string -> string)
    requires request.verb == "DELETE" && provider.delete == Deleted
    requires "path" in request.args && !EndsWithSlash(request.args["path"])
    ensures var o := Handle(request, provider, makeDisposition);
      && o.response == Ok(Reply(204, map[], []))
      && o.trace == [DeleteCalled(Lift(request.args)), HookSent("delete", DeleteHookPayload(request.args["path"], request.args))]
      && DeleteCalls(o.trace) == 1 && HooksSent(o.trace) == 1
      && o.trace[1].payload.fields["path"] == JStr(request.args["path"])
      && o.trace[1].payload.fields["full_path"]
         == (if "full_path" in request.args then JStr(request.args["full_path"]) else JNull)
  {
    var o := Handle(request, provider, makeDisposition);
    assert o.trace[1..][1..] == [];
    assert DeleteCalls(o.trace[1..]) == 0 && HooksSent(o.trace[1..]) == 1;
  }

  /**
   * A file delete the provider fails makes its one provider call, answers
   * with the provider's exception and sends no hook.
   */
  lemma FailedDeleteSendsNoHook(request: Request, provider: Provider, makeDisposition: string -> string)
    requires request.verb == "DELETE" && provider.delete.DeleteRaised?
    requires !EndsWithSlash(if "path" in request.args then request.args["path"] else "")
    ensures var o := Handle(request, provider, makeDisposition);
      && o.response == Err(ProviderRaised(provider.delete.reason))
      && DeleteCalls(o.trace) == 1 && HooksSent(o.trace) == 0
  {
    var o := Handle(request, provider, makeDisposition);
    assert o.trace == [DeleteCalled(Lift(request.args))];
    assert o.trace[1..] == [];
  }

  /**
   * The handler as written does not answer a directory delete with 400: the
   * rejection itself raises TypeError (no provider call is made either way).
   */
  lemma DirectoryDeleteAsWrittenIsNot400()
    ensures DeleteAsWritten(map["path" := "folder/"], Deleted).response == Err(UnhandledException("TypeError"))
    ensures DeleteAsWritten(map["path" := "folder/"], Deleted).response != Err(HttpError(400))
    ensures DeleteAsWritten(map["path" := "folder/"], Deleted).trace == []
  {
  }
}

=== FILE: crud_types.dfy ===
/**
 * The abstract request, provider outcomes, response and trace that the CRUD
 * handler's decision rules are stated over.
 */
module CrudTypes {
  import opened Wrappers
  import opened Python

  /** A keyword argument passed on to the provider: a query string, or `accept_url` once converted. */
  datatype Arg = Text(s: string) | Flag(b: bool)

  /** One request as the handler sees it: method, argument map and the body chunks Tornado delivers. */
  datatype Request = Request(verb: string, args: map<string, string>, body: seq<Chunk>)

  /** What the provider's `download` returns, or the exception it raises. */
  datatype DownloadResult =
    | SignedUrl(url: string)
      /**
       * A stream: `responseHeaders` is None when the result has no `response`
       * attribute; `stream` is what successive reads return, after which the
       * next read returns the empty chunk or, when `readError` is set, raises.
       */
    | Streamed(contentType: string, size: Option<int>, responseHeaders: Option<map<string, string>>,
               stream: seq<Chunk>, readError: Option<string>)
    | DownloadRaised(reason: string)

  /** What the awaited uploader yields: `(metadata, created)`, or the exception it raises. */
  datatype UploadResult = Uploaded(metadata: Json, created: bool) | UploadRaised(reason: string)

  /** What the provider's `delete` does. */
  datatype DeleteResult = Deleted | DeleteRaised(reason: string)

  /** The provider's behaviour for the one request being handled. */
  datatype Provider = Provider(download: DownloadResult, upload: UploadResult, delete: DeleteResult)

  /** Why a request ends without a normal response. */
  datatype HandlerError =
    | HttpError(status: int)               // web.HTTPError raised by the handler itself
    | MissingArgument(key: string)         // KeyError reading self.arguments
    | ProviderRaised(reason: string)       // an exception from a provider call, passed through
    | UnhandledException(name: string)     // any other exception escaping the handler

  /** The body of a response: written bytes, or a dict serialised by `write`. */
  datatype Body = Bytes(data: Chunk) | Document(value: Json)

  datatype Response =
    | Redirect(location: string)
    | Reply(status: int, headers: map<string, string>, body: seq<Body>)

  /** An observable step of the handler, in the order it happens. */
  datatype Event =
    | StreamOpened                          // RequestStreamReader created
    | UploadStarted(args: map<string, Arg>) // provider.upload scheduled against the stream
    | DataFed(chunk: Chunk)                 // stream.feed_data
    | EofFed                                // stream.feed_eof
    | UploadAwaited                         // the uploader's result awaited
    | DownloadCalled(args: map<string, Arg>)
    | ChunkRead(chunk: Chunk)               // result.read(CHUNK_SIZE)
    | ChunkWritten(chunk: Chunk)            // self.write(chunk)
    | Flushed                               // self.flush() completed
    | DeleteCalled(args: map<string, Arg>)
    | HookSent(action: string, payload: Json)

  /** How handling a request ended, together with everything it did on the way. */
  datatype Outcome = Outcome(response: Result<Response, HandlerError>, trace: seq<Event>)

  /** The request arguments as keyword arguments for a provider call. */
  function Lift(args: map<string, string>): (kw: map<string, Arg>)
    ensures kw.Keys == args.Keys
    ensures forall k :: k in args ==> kw[k] == Text(args[k])
  {
    map k | k in args :: Text(args[k])
  }
}

=== FILE: dataverse_metadata.dfy ===
/**
 * Normalised metadata for the Dataverse storage backend: a file record read
 * from one raw `datafile` payload, and a dataset (folder) record that owns one
 * file record per element of its raw `files` list.
 *
 * Every attribute is a pure function of the constructor inputs. Attributes
 * that read the raw payload return the KeyError/TypeError the lookup raises
 * when the payload lacks the field.
 */
module DataverseMetadata {
  import opened Wrappers
  import opened Python

  /**
   * Behaviour defined by the shared metadata base classes, which are not part
   * of this model; every lemma below holds whatever these functions are.
   */
  datatype Env = Env(
    buildPath: string -> string,                              // BaseMetadata.build_path
    repr: Json -> string,                                     // str() of a JSON list or dict
    fileRecord: FileMetadata -> Result<Json, PyError>,        // BaseFileMetadata.serialized
    folderRecord: DatasetMetadata -> Result<Json, PyError>)   // BaseFolderMetadata.serialized

  /** `DataverseFileMetadata(raw, dataset_version)`. */
  datatype FileMetadata = FileMetadata(raw: Json, datasetVersion: string)

  /** `DataverseDatasetMetadata(raw, name, doi, version)` with the entries its constructor built. */
  datatype DatasetMetadata = DatasetMetadata(raw: Json, name: string, doi: string, entries: seq<FileMetadata>)

  /** Either kind of Dataverse record; a record is a file or a folder, never both. */
  datatype Metadata = File(file: FileMetadata) | Dataset(dataset: DatasetMetadata)

  /** The versions whose files may still be deleted: the draft and its alias. */
  const MutableVersions: set<string> := {"latest", "draft"}

  /** `provider`, shared by both record kinds through the Dataverse base class. */
  function Provider(m: Metadata): (p: string)
    ensures p == "dataverse"
  {
    "dataverse"
  }

  // ---------------------------------------------------------------------
  // File records

  /** `file_id`: `str(raw['id'])`. */
  function FileId(f: FileMetadata, env: Env): (r: Result<string, PyError>)
    ensures r.Ok? <==> f.raw.JObject? && "id" in f.raw.fields
    ensures !f.raw.JObject? ==> r == Err(TypeError)
    ensures f.raw.JObject? && "id" !in f.raw.fields ==> r == Err(KeyError("id"))
    ensures r.Ok? && f.raw.fields["id"].JStr? ==> r.value == f.raw.fields["id"].s
    ensures r.Ok? && f.raw.fields["id"].JInt? ==> ParseInt(r.value) == Some(f.raw.fields["id"].i)
  {
    var id :- Subscript(f.raw, "id");
    Ok(Str(id, env.repr))
  }

  /** `name`: `raw['name']`. */
  function FileName(f: FileMetadata): (r: Result<Json, PyError>)
    ensures r.Ok? <==> f.raw.JObject? && "name" in f.raw.fields
    ensures r.Ok? ==> r.value == f.raw.fields["name"]
    ensures r.Err? ==> r.error == if f.raw.JObject? then KeyError("name") else TypeError
  {
    Subscript(f.raw, "name")
  }

  /** `path`: `build_path(file_id)`. */
  function FilePath(f: FileMetadata, env: Env): (r: Result<string, PyError>)
    ensures r.Ok? <==> FileId(f, env).Ok?
    ensures r.Ok? ==> r.value == env.buildPath(FileId(f, env).value)
    ensures r.Err? ==> r.error == FileId(f, env).error
  {
    var id :- FileId(f, env);
    Ok(env.buildPath(id))
  }

  /** `size`: Dataverse reports none. */
  function FileSize(f: FileMetadata): (r: Option<int>)
    ensures r.None?
  {
    None
  }

  /** `content_type`: `raw['contentType']`. */
  function FileContentType(f: FileMetadata): (r: Result<Json, PyError>)
    ensures r.Ok? <==> f.raw.JObject? && "contentType" in f.raw.fields
    ensures r.Ok? ==> r.value == f.raw.fields["contentType"]
    ensures r.Err? ==> r.error == if f.raw.JObject? then KeyError("contentType") else TypeError
  {
    Subscript(f.raw, "contentType")
  }

  /** `modified`: Dataverse reports none. */
  function FileModified(f: FileMetadata): (r: Option<string>)
    ensures r.None?
  {
    None
  }

  /** `can_delete`: only files of the draft dataset version may be deleted. */
  function CanDelete(f: FileMetadata): (r: bool)
    ensures r <==> f.datasetVersion in MutableVersions
  {
    f.datasetVersion == "latest" || f.datasetVersion == "draft"
  }

  /** `extra`: the dict `{'fileId': file_id, 'canDelete': can_delete}`. */
  function Extra(f: FileMetadata, env: Env): (r: Result<Json, PyError>)
    ensures r.Ok? <==> FileId(f, env).Ok?
    ensures r.Ok? ==> r.value.JObject? && r.value.fields.Keys == {"fileId", "canDelete"}
  {
    var id :- FileId(f, env);
    Ok(JObject(map["fileId" := JStr(id), "canDelete" := JBool(CanDelete(f))]))
  }

  /**
   * The identity of a file record is its raw `id` alone: two records whose
   * raw ids are equal have the same `file_id` and the same `path`, whatever
   * their names, content types or dataset versions.
   */
  lemma SameIdSamePath(f: FileMetadata, g: FileMetadata, env: Env)
    requires Subscript(f.raw, "id") == Subscript(g.raw, "id")
    ensures FileId(f, env) == FileId(g, env)
    ensures FilePath(f, env) == FilePath(g, env)
  {
  }

  /** An integer raw id becomes its decimal string, which reads back as the id. */
  lemma IntegerFileId(f: FileMetadata, env: Env, n: int)
    requires Subscript(f.raw, "id") == Ok(JInt(n))
    ensures FileId(f, env).Ok?
    ensures ParseInt(FileId(f, env).value) == Some(n)
    ensures FilePath(f, env) == Ok(env.buildPath(FileId(f, env).value))
  {
  }

  /**
   * Conversely, for integer raw ids the `file_id` tells files apart: two
   * files share a `file_id` exactly when their ids are equal.
   */
  lemma IntegerFileIdsDistinct(f: FileMetadata, g: FileMetadata, env: Env, a: int, b: int)
    requires Subscript(f.raw, "id") == Ok(JInt(a))
    requires Subscript(g.raw, "id") == Ok(JInt(b))
    ensures FileId(f, env) == FileId(g, env) <==> a == b
  {
  }

  /**
   * The plain attributes: `name` and `content_type` are the raw fields (or
   * the lookup's exception), `size` and `modified` are always absent.
   */
  lemma FileAttributes(f: FileMetadata)
    ensures FileName(f).Ok? <==> f.raw.JObject? && "name" in f.raw.fields
    ensures FileName(f).Ok? ==> FileName(f).value == f.raw.fields["name"]
    ensures FileContentType(f).Ok? <==> f.raw.JObject? && "contentType" in f.raw.fields
    ensures FileContentType(f).Ok? ==> FileContentType(f).value == f.raw.fields["contentType"]
    ensures FileSize(f).None? && FileModified(f).None?
    ensures Provider(File(f)) == "dataverse"
  {
  }

  /** `can_delete` over a spread of version strings: only the exact lower-case names qualify. */
  lemma CanDeleteVersions(raw: Json)
    ensures CanDelete(FileMetadata(raw, "latest")) && CanDelete(FileMetadata(raw, "draft"))
    ensures !CanDelete(FileMetadata(raw, "LATEST")) && !CanDelete(FileMetadata(raw, "Draft"))
    ensures !CanDelete(FileMetadata(raw, "1.0")) && !CanDelete(FileMetadata(raw, ""))
    ensures !CanDelete(FileMetadata(raw, "latest-published")) && !CanDelete(FileMetadata(raw, "draft "))
  {
  }

  /**
   * `extra` always agrees with `file_id` and `can_delete`: it exists exactly
   * when `file_id` does, has exactly the two keys, and carries their values.
   */
  lemma ExtraAgrees(f: FileMetadata, env: Env)
    ensures Extra(f, env).Ok? <==> FileId(f, env).Ok?
    ensures Extra(f, env).Err? ==> Extra(f, env).error == FileId(f, env).error
    ensures Extra(f, env).Ok? ==>
      && Extra(f, env).value.JObject?
      && Extra(f, env).value.fields.Keys == {"fileId", "canDelete"}
      && Extra(f, env).value.fields["fileId"] == JStr(FileId(f, env).value)
      && Extra(f, env).value.fields["canDelete"] == JBool(CanDelete(f))
  {
  }

  // ---------------------------------------------------------------------
  // Dataset records

  /** `f['datafile']` for each element `f` of a list, stopping at the first that raises. */
  function DatafilesOfList(items: seq<Json>): (r: Result<seq<Json>, PyError>)
    ensures r.Ok? <==> forall i :: 0 <= i < |items| ==> Subscript(items[i], "datafile").Ok?
    ensures r.Ok? ==> |r.value| == |items|
    ensures r.Ok? ==> forall i :: 0 <= i < |items| ==> Subscript(items[i], "datafile") == Ok(r.value[i])
    ensures r.Err? ==>
      exists i :: && 0 <= i < |items|
                  && Subscript(items[i], "datafile") == Err(r.error)
                  && forall j :: 0 <= j < i ==> Subscript(items[j], "datafile").Ok?
  {
    if |items| == 0 then Ok([])
    else
      var first :- Subscript(items[0], "datafile");
      var rest :- DatafilesOfList(items[1..]);
      Ok([first] + rest)
  }

  /**
   * `[f['datafile'] for f in files]` for any JSON shape of `files`:
   * a list yields one datafile per element; iterating an empty str or dict
   * yields nothing; a non-empty str or dict yields strings, and subscripting
   * a string raises TypeError; None, bools and ints are not iterable.
   */
  function Datafiles(files: Json): (r: Result<seq<Json>, PyError>)
    ensures files.JList? ==> r == DatafilesOfList(files.items)
    ensures files.JStr? ==> (r.Ok? <==> files.s == "")
    ensures files.JObject? ==> (r.Ok? <==> files.fields == map[])
    ensures !files.JList? && r.Ok? ==> r.value == []
    ensures !files.JList? && r.Err? ==> r.error == TypeError
    ensures files.JNull? || files.JBool? || files.JInt? ==> r.Err?
  {
    match files
    case JList(items) => DatafilesOfList(items)
    case JStr(s) => if s == "" then Ok([]) else Err(TypeError)
    case JObject(fields) => if fields == map[] then Ok([]) else Err(TypeError)
    case _ => Err(TypeError)
  }

  /** Only the first element without a `datafile` decides the exception: a dict without one, not a later string. */
  lemma FirstMissingDatafileRaises()
    ensures DatafilesOfList([JObject(map[]), JStr("x")]) == Err(KeyError("datafile"))
    ensures Datafiles(JList([JObject(map[]), JStr("x")])) == Err(KeyError("datafile"))
    ensures Datafiles(JObject(map["datafile" := JNull])) == Err(TypeError)
  {
  }

  /** One file record per datafile, in order, all sharing the dataset's version. */
  function EntriesOf(datafiles: seq<Json>, version: string): (entries: seq<FileMetadata>)
    ensures |entries| == |datafiles|
    ensures forall i :: 0 <= i < |datafiles| ==> entries[i] == FileMetadata(datafiles[i], version)
  {
    seq(|datafiles|, i requires 0 <= i < |datafiles| => FileMetadata(datafiles[i], version))
  }

  /**
   * The dataset constructor: keeps `name` and `doi` and builds the entries
   * once from `raw['files']`. When `raw['files']` is a list, construction
   * succeeds exactly when every element has a `datafile`, and then entry i is
   * the file record of element i's datafile at the dataset's version.
   */
  function NewDataset(raw: Json, name: string, doi: string, version: string): (r: Result<DatasetMetadata, PyError>)
    ensures r.Ok? ==> r.value.raw == raw && r.value.name == name && r.value.doi == doi
    ensures !raw.JObject? ==> r == Err(TypeError)
    ensures raw.JObject? && "files" !in raw.fields ==> r == Err(KeyError("files"))
    ensures raw.JObject? && "files" in raw.fields && raw.fields["files"].JList? ==>
      var items := raw.fields["files"].items;
      && (r.Ok? <==> forall i :: 0 <= i < |items| ==> Subscript(items[i], "datafile").Ok?)
      && (r.Ok? ==> |r.value.entries| == |items|)
      && (r.Ok? ==> forall i :: 0 <= i < |items| ==>
            Subscript(items[i], "datafile") == Ok(r.value.entries[i].raw)
            && r.value.entries[i].datasetVersion == version)
  {
    var files :- Subscript(raw, "files");
    var datafiles :- Datafiles(files);
    Ok(DatasetMetadata(raw, name, doi, EntriesOf(datafiles, version)))
  }

  /** `name` of a dataset: the name given to the constructor. */
  function DatasetName(d: DatasetMetadata): (r: string)
    ensures r == d.name
  {
    d.name
  }

  /** `path` of a dataset: `build_path(doi)`. */
  function DatasetPath(d: DatasetMetadata, env: Env): (r: string)
    ensures r == env.buildPath(d.doi)
  {
    env.buildPath(d.doi)
  }

  /** `entries` of a dataset: the file records built by the constructor. */
  function Entries(d: DatasetMetadata): (r: seq<FileMetadata>)
    ensures r == d.entries
  {
    d.entries
  }

  /** Every entry of a constructed dataset has the same `can_delete`, the one its version implies. */
  lemma EntriesShareCanDelete(raw: Json, name: string, doi: string, version: string)
    requires NewDataset(raw, name, doi, version).Ok?
    ensures forall e :: e in Entries(NewDataset(raw, name, doi, version).value) ==>
      e.datasetVersion == version && CanDelete(e) == (version in MutableVersions)
  {
  }

  /** A constructed dataset's `name` and `path` depend on the constructor's name and doi only, not on its files. */
  lemma DatasetIdentity(raw1: Json, raw2: Json, name: string, doi: string, v1: string, v2: string, env: Env)
    requires NewDataset(raw1, name, doi, v1).Ok? && NewDataset(raw2, name, doi, v2).Ok?
    ensures DatasetName(NewDataset(raw1, name, doi, v1).value) == name
    ensures DatasetPath(NewDataset(raw1, name, doi, v1).value, env)
         == DatasetPath(NewDataset(raw2, name, doi, v2).value, env)
         == env.buildPath(doi)
    ensures Provider(Dataset(NewDataset(raw1, name, doi, v1).value)) == "dataverse"
  {
  }

  // ---------------------------------------------------------------------
  // Serialisation

  /** What `serialized()` of a dataset returns: a list of records, or the single self-record. */
  datatype Serialization = RecordList(records: seq<Json>) | SelfRecord(record: Json)

  /** How many records a serialization holds. */
  function RecordCount(s: Serialization): nat {
    match s
    case RecordList(records) => |records|
    case SelfRecord(_) => 1
  }

  /** `[e.serialized() for e in entries]`, stopping at the first that raises. */
  function SerializeEach(entries: seq<FileMetadata>, env: Env): (r: Result<seq<Json>, PyError>)
    ensures r.Ok? <==> forall i :: 0 <= i < |entries| ==> env.fileRecord(entries[i]).Ok?
    ensures r.Ok? ==> |r.value| == |entries|
    ensures r.Ok? ==> forall i :: 0 <= i < |entries| ==> env.fileRecord(entries[i]) == Ok(r.value[i])
    ensures r.Err? ==>
      exists i :: && 0 <= i < |entries|
                  && env.fileRecord(entries[i]) == Err(r.error)
                  && forall j :: 0 <= j < i ==> env.fileRecord(entries[j]).Ok?
  {
    if |entries| == 0 then Ok([])
    else
      var first :- env.fileRecord(entries[0]);
      var rest :- SerializeEach(entries[1..], env);
      Ok([first] + rest)
  }

  /**
   * `serialized()` of a dataset: with entries, one record per entry in
   * order; without entries, the base class's single self-record, so an
   * empty dataset is still representable.
   */
  function Serialized(d: DatasetMetadata, env: Env): (r: Result<Serialization, PyError>)
    ensures |d.entries| > 0 ==> (r.Ok? <==> forall i :: 0 <= i < |d.entries| ==> env.fileRecord(d.entries[i]).Ok?)
    ensures |d.entries| > 0 && r.Ok? ==>
      && r.value.RecordList?
      && |r.value.records| == |d.entries|
      && forall i :: 0 <= i < |d.entries| ==> env.fileRecord(d.entries[i]) == Ok(r.value.records[i])
    ensures |d.entries| == 0 ==> (r.Ok? <==> env.folderRecord(d).Ok?)
    ensures |d.entries| == 0 && r.Ok? ==> r.value == SelfRecord(env.folderRecord(d).value)
  {
    if |d.entries| > 0 then
      var records :- SerializeEach(d.entries, env);
      Ok(RecordList(records))
    else
      var self :- env.folderRecord(d);
      Ok(SelfRecord(self))
  }

  /** A dataset serializes to one record per entry, and to exactly one record when it has none. */
  lemma SerializedRecordCount(d: DatasetMetadata, env: Env)
    requires Serialized(d, env).Ok?
    ensures RecordCount(Serialized(d, env).value) == if |d.entries| == 0 then 1 else |d.entries|
  {
  }
}

=== FILE: download_stream.dfy ===
/**
 * The download loop: read a chunk, stop at the first empty one, otherwise
 * write it and flush before reading again. The provider's stream is a
 * sequence of read results followed by how it ends: once the sequence is
 * exhausted the next read either returns the empty chunk (end of stream) or
 * raises `readError`, which then propagates out of the loop.
 */
module DownloadStream {
  import opened Wrappers
  import opened Python
  import opened CrudTypes

  /** What the i-th read does: return a chunk, or raise. */
  function ReadAt(stream: seq<Chunk>, readError: Option<string>, i: nat): Result<Chunk, string> {
    if i < |stream| then Ok(stream[i])
    else match readError
      case Some(e) => Err(e)
      case None => Ok([])
  }

  /** All bytes of a sequence of chunks, in order. */
  function Concat(chunks: seq<Chunk>): Chunk {
    if |chunks| == 0 then [] else chunks[0] + Concat(chunks[1..])
  }

  /**
   * `written` is what the loop passes on: the chunks read before the first
   * empty one, none of them empty.
   */
  ghost predicate WrittenPrefix(stream: seq<Chunk>, written: seq<Chunk>) {
    && |written| <= |stream|
    && written == stream[..|written|]
    && (forall j :: 0 <= j < |written| ==> written[j] != [])
    && (|written| == |stream| || stream[|written|] == [])
  }

  /**
   * The pacing of the loop: every written chunk is preceded by the read that
   * produced it and followed by a flush, which comes before the next read.
   * When `ended`, the loop stops with a read that returned the empty chunk;
   * otherwise the next read raised, and nothing follows the last flush.
   */
  ghost predicate PacedTrace(written: seq<Chunk>, trace: seq<Event>, ended: bool) {
    && |trace| == 3 * |written| + (if ended then 1 else 0)
    && (forall j :: 0 <= j < |written| ==>
          && trace[3 * j] == ChunkRead(written[j])
          && trace[3 * j + 1] == ChunkWritten(written[j])
          && trace[3 * j + 2] == Flushed)
    && (ended ==> trace[3 * |written|] == ChunkRead([]))
  }

  /**
   * The chunks a download writes, the steps it takes, and the exception a
   * read raised, if one did.
   */
  datatype Transfer = Transfer(written: seq<Chunk>, trace: seq<Event>, failure: Option<string>)

  /**
   * The download loop as a recursive function over the remaining stream.
   * It raises exactly when every chunk was passed on without meeting an
   * empty one and the stream then fails.
   */
  function Pump(stream: seq<Chunk>, readError: Option<string>): (t: Transfer)
    ensures WrittenPrefix(stream, t.written)
    ensures t.failure == if |t.written| == |stream| then readError else None
    ensures PacedTrace(t.written, t.trace, t.failure.None?)
    decreases |stream|
  {
    if |stream| == 0 then
      match readError
      case Some(e) => Transfer([], [], Some(e))
      case None => Transfer([], [ChunkRead([])], None)
    else if stream[0] == [] then Transfer([], [ChunkRead([])], None)
    else
      var rest := Pump(stream[1..], readError);
      PrefixCons(stream, rest.written);
      PacedCons(stream[0], rest.written, rest.trace, rest.failure.None?);
      Transfer([stream[0]] + rest.written,
               [ChunkRead(stream[0]), ChunkWritten(stream[0]), Flushed] + rest.trace,
               rest.failure)
  }

  /** A non-empty first read in front of a written prefix extends it. */
  lemma PrefixCons(stream: seq<Chunk>, written: seq<Chunk>)
    requires |stream| > 0 && stream[0] != []
    requires WrittenPrefix(stream[1..], written)
    ensures WrittenPrefix(stream, [stream[0]] + written)
  {
    var w := [stream[0]] + written;
    assert w == stream[..|w|];
  }

  /** A written prefix stops at or before the stream's first empty chunk. */
  lemma PrefixStopsAtEmpty(stream: seq<Chunk>, written: seq<Chunk>, k: nat)
    requires WrittenPrefix(stream, written)
    requires k < |stream| && stream[k] == []
    ensures |written| <= k
  {
  }

  /** Putting one more read, write and flush in front of a paced trace keeps it paced. */
  lemma PacedCons(c: Chunk, written: seq<Chunk>, trace: seq<Event>, ended: bool)
    requires PacedTrace(written, trace, ended)
    ensures PacedTrace([c] + written, [ChunkRead(c), ChunkWritten(c), Flushed] + trace, ended)
  {
    var w := [c] + written;
    var t := [ChunkRead(c), ChunkWritten(c), Flushed] + trace;
    assert |t| == 3 * |w| + (if ended then 1 else 0);
    assert ended ==> t[3 * |w|] == ChunkRead([]) by {
      if ended {
        assert 3 * |w| == 3 * |written| + 3;
        assert t[3 * |written| + 3] == trace[3 * |written|];
      }
    }
    TriplesCons(c, written, trace);
  }

  /** The read, write and flush of each chunk, shifted by one chunk. */
  lemma TriplesCons(c: Chunk, written: seq<Chunk>, trace: seq<Event>)
    requires |trace| >= 3 * |written|
    requires forall j :: 0 <= j < |written| ==>
      && trace[3 * j] == ChunkRead(written[j])
      && trace[3 * j + 1] == ChunkWritten(written[j])
      && trace[3 * j + 2] == Flushed
    ensures var w, t := [c] + written, [ChunkRead(c), ChunkWritten(c), Flushed] + trace;
      forall j :: 0 <= j < |w| ==>
        && t[3 * j] == ChunkRead(w[j])
        && t[3 * j + 1] == ChunkWritten(w[j])
        && t[3 * j + 2] == Flushed
  {
    var w := [c] + written;
    var t := [ChunkRead(c), ChunkWritten(c), Flushed] + trace;
    forall j | 0 <= j < |w|
      ensures t[3 * j] == ChunkRead(w[j])
      ensures t[3 * j + 1] == ChunkWritten(w[j])
      ensures t[3 * j + 2] == Flushed
    {
      if j > 0 {
        var k := j - 1;
        assert 3 * j == 3 * k + 3;
        assert w[j] == written[k];
        assert t[3 * k + 3] == trace[3 * k];
        assert t[3 * k + 4] == trace[3 * k + 1];
        assert t[3 * k + 5] == trace[3 * k + 2];
      }
    }
  }

  /** The chunks a stream passes on are determined by the stream: there is only one written prefix. */
  lemma {:induction false} WrittenPrefixUnique(stream: seq<Chunk>, w1: seq<Chunk>, w2: seq<Chunk>)
    requires WrittenPrefix(stream, w1) && WrittenPrefix(stream, w2)
    ensures w1 == w2
  {
    if |w1| < |w2| {
      assert false;
    } else if |w2| < |w1| {
      assert false;
    }
  }

  /** The pacing fixes the trace: a written sequence has exactly one paced trace. */
  lemma PacedTraceUnique(written: seq<Chunk>, t1: seq<Event>, t2: seq<Event>, ended: bool)
    requires PacedTrace(written, t1, ended) && PacedTrace(written, t2, ended)
    ensures t1 == t2
  {
    forall i | 0 <= i < |t1|
      ensures t1[i] == t2[i]
    {
      var j := i / 3;
      if j < |written| {
        assert i == 3 * j || i == 3 * j + 1 || i == 3 * j + 2;
      } else {
        assert i == 3 * |written|;
      }
    }
  }

  /** A streamed download does nothing but read, write and flush. */
  predicate IsStreamStep(e: Event) {
    e.ChunkRead? || e.ChunkWritten? || e.Flushed?
  }

  lemma PacedStepsOnly(written: seq<Chunk>, trace: seq<Event>, ended: bool)
    requires PacedTrace(written, trace, ended)
    ensures forall i :: 0 <= i < |trace| ==> IsStreamStep(trace[i])
  {
    forall i | 0 <= i < |trace|
      ensures IsStreamStep(trace[i])
    {
      var j := i / 3;
      if j < |written| {
        assert i == 3 * j || i == 3 * j + 1 || i == 3 * j + 2;
      } else {
        assert i == 3 * |written|;
      }
    }
  }

  /**
   * The loop as the handler runs it, writing and flushing each chunk before
   * the next read. `sent` is every byte put on the connection; `failure` is
   * the exception a read raised, which ends the loop.
   */
  method DownloadLoop(stream: seq<Chunk>, readError: Option<string>)
    returns (written: seq<Chunk>, trace: seq<Event>, sent: Chunk, failure: Option<string>)
    ensures WrittenPrefix(stream, written)
    ensures failure == if |written| == |stream| then readError else None
    ensures PacedTrace(written, trace, failure.None?)
    ensures sent == Concat(written)
  {
    written, trace, sent, failure := [], [], [], None;
    var i := 0;
    while true
      invariant 0 <= i <= |stream|
      invariant written == stream[..i]
      invariant forall j :: 0 <= j < i ==> stream[j] != []
      invariant PacedTrace(written, trace, false)
      invariant sent == Concat(written)
      invariant failure.None?
      decreases |stream| - i
    {
      var read := ReadAt(stream, readError, i);
      if read.Err? {
        assert i == |stream| && written == stream;
        failure := Some(read.error);
        break;
      }
      var chunk := read.value;
      if chunk == [] {
        assert i == |stream| || stream[i] == [];
        PacedEnd(written, trace);
        trace := trace + [ChunkRead(chunk)];
        break;
      }
      assert i < |stream| && chunk == stream[i];
      assert stream[..i + 1] == written + [chunk];
      PacedSnoc(written, trace, chunk);
      ConcatAppend(written, chunk);
      written := written + [chunk];
      trace := trace + [ChunkRead(chunk), ChunkWritten(chunk), Flushed];
      sent := sent + chunk;
      i := i + 1;
    }
  }

  /** Appending one more read, write and flush to a paced trace keeps it paced. */
  lemma PacedSnoc(written: seq<Chunk>, trace: seq<Event>, c: Chunk)
    requires PacedTrace(written, trace, false)
    ensures PacedTrace(written + [c], trace + [ChunkRead(c), ChunkWritten(c), Flushed], false)
  {
    var w := written + [c];
    var t := trace + [ChunkRead(c), ChunkWritten(c), Flushed];
    forall j | 0 <= j < |w|
      ensures t[3 * j] == ChunkRead(w[j])
      ensures t[3 * j + 1] == ChunkWritten(w[j])
      ensures t[3 * j + 2] == Flushed
    {
      if j < |written| {
        assert w[j] == written[j];
        assert t[3 * j] == trace[3 * j];
        assert t[3 * j + 1] == trace[3 * j + 1];
        assert t[3 * j + 2] == trace[3 * j + 2];
      } else {
        assert 3 * j == |trace|;
      }
    }
  }

  /** A paced trace closed by the read of the empty chunk is a paced trace that ended. */
  lemma PacedEnd(written: seq<Chunk>, trace: seq<Event>)
    requires PacedTrace(written, trace, false)
    ensures PacedTrace(written, trace + [ChunkRead([])], true)
  {
    var t := trace + [ChunkRead([])];
    forall j | 0 <= j < |written|
      ensures t[3 * j] == ChunkRead(written[j])
      ensures t[3 * j + 1] == ChunkWritten(written[j])
      ensures t[3 * j + 2] == Flushed
    {
      assert t[3 * j] == trace[3 * j];
      assert t[3 * j + 1] == trace[3 * j + 1];
      assert t[3 * j + 2] == trace[3 * j + 2];
    }
  }

  lemma {:induction false} ConcatAppend(chunks: seq<Chunk>, c: Chunk)
    ensures Concat(chunks + [c]) == Concat(chunks) + c
    decreases |chunks|
  {
    if |chunks| > 0 {
      assert (chunks + [c])[1..] == chunks[1..] + [c];
      ConcatAppend(chunks[1..], c);
    }
  }

  /** The loop and the recursive definition write the same chunks, take the same steps and raise alike. */
  method LoopMatchesPump(stream: seq<Chunk>, readError: Option<string>)
    returns (written: seq<Chunk>, trace: seq<Event>, sent: Chunk, failure: Option<string>)
    ensures written == Pump(stream, readError).written && trace == Pump(stream, readError).trace
    ensures failure == Pump(stream, readError).failure
    ensures sent == Concat(Pump(stream, readError).written)
  {
    written, trace, sent, failure := DownloadLoop(stream, readError);
    var t := Pump(stream, readError);
    WrittenPrefixUnique(stream, written, t.written);
    PacedTraceUnique(written, trace, t.trace, failure.None?);
  }
}

=== FILE: python.dfy ===
/**
 * The few Python value semantics the modelled code relies on: decoded JSON
 * values, subscripting with `[key]`, `str()` of an int and ASCII `lower()`.
 */
module Python {
  import opened Wrappers

  type byte = x: int | 0 <= x < 256

  /** One chunk of bytes, as read from or written to a connection. */
  type Chunk = seq<byte>

  /** A value decoded from JSON. Numbers are modelled as integers only. */
  datatype Json =
    | JNull
    | JBool(b: bool)
    | JInt(i: int)
    | JStr(s: string)
    | JList(items: seq<Json>)
    | JObject(fields: map<string, Json>)

  /** The exceptions that subscripting a decoded JSON value can raise. */
  datatype PyError = KeyError(key: string) | TypeError

  /**
   * `value[key]` with a string key: a dict answers with the stored value or
   * raises KeyError; every other JSON shape (None, bool, int, str, list)
   * raises TypeError.
   */
  function Subscript(value: Json, key: string): (r: Result<Json, PyError>)
    ensures r.Ok? <==> value.JObject? && key in value.fields
    ensures r.Ok? ==> r.value == value.fields[key]
    ensures r == Err(KeyError(key)) <==> value.JObject? && key !in value.fields
    ensures r == Err(TypeError) <==> !value.JObject?
  {
    match value
    case JObject(fields) => if key in fields then Ok(fields[key]) else Err(KeyError(key))
    case _ => Err(TypeError)
  }

  // ---------------------------------------------------------------------
  // str() of an int, and its inverse

  predicate IsDigit(c: char) {
    '0' <= c <= '9'
  }

  predicate AllDigits(s: string) {
    forall i :: 0 <= i < |s| ==> IsDigit(s[i])
  }

  function DigitChar(d: int): (c: char)
    requires 0 <= d < 10
    ensures IsDigit(c)
  {
    ('0' as int + d) as char
  }

  function DigitValue(c: char): (d: int)
    requires IsDigit(c)
    ensures 0 <= d < 10
  {
    c as int - '0' as int
  }

  /** Decimal digits of a natural number, most significant first, no leading zero. */
  function NatToString(n: nat): (s: string)
    ensures |s| > 0 && AllDigits(s)
    ensures n > 0 ==> s[0] != '0'
    decreases n
  {
    if n < 10 then [DigitChar(n)] else NatToString(n / 10) + [DigitChar(n % 10)]
  }

  /** Python's `str(i)` for an int: an optional minus sign and the decimal digits. */
  function IntToString(i: int): (s: string)
    ensures |s| > 0
    ensures s[0] == '-' <==> i < 0
  {
    if i < 0 then "-" + NatToString(-i) else NatToString(i)
  }

  /** The number a string of decimal digits denotes (0 for the empty string). */
  function DigitsValue(s: string): nat
    requires AllDigits(s)
  {
    if |s| == 0 then 0 else DigitsValue(s[..|s| - 1]) * 10 + DigitValue(s[|s| - 1])
  }

  /** Reads a decimal numeral back: an optional minus sign followed by at least one digit. */
  function ParseInt(s: string): Option<int> {
    if |s| > 0 && s[0] == '-' then
      if |s| > 1 && AllDigits(s[1..]) then Some(-(DigitsValue(s[1..]) as int)) else None
    else if |s| > 0 && AllDigits(s) then Some(DigitsValue(s))
    else None
  }

  lemma {:induction false} NatToStringRoundTrip(n: nat)
    ensures DigitsValue(NatToString(n)) == n
    decreases n
  {
    if n >= 10 {
      var s := NatToString(n);
      NatToStringRoundTrip(n / 10);
      assert s[..|s| - 1] == NatToString(n / 10);
    }
  }

  /** `str()` of an int reads back as the same int, so the decimal form loses nothing. */
  lemma IntToStringRoundTrip(i: int)
    ensures ParseInt(IntToString(i)) == Some(i)
  {
    if i < 0 {
      var s := IntToString(i);
      assert s[1..] == NatToString(-i);
      NatToStringRoundTrip(-i);
    } else {
      NatToStringRoundTrip(i);
    }
  }

  // ---------------------------------------------------------------------
  // str.lower() and str() of decoded JSON

  /**
   * `lower()` of one character. Only ASCII letters are mapped: no other
   * character lower-cases to an ASCII letter of "true" or "false", which is
   * all the modelled code compares against.
   */
  function LowerChar(c: char): char {
    if 'A' <= c <= 'Z' then (c as int + 32) as char else c
  }

  function UpperChar(c: char): char {
    if 'a' <= c <= 'z' then (c as int - 32) as char else c
  }

  /** `s.lower()`. */
  function Lower(s: string): (r: string)
    ensures |r| == |s|
    ensures forall i :: 0 <= i < |s| ==> r[i] == LowerChar(s[i])
  {
    seq(|s|, i requires 0 <= i < |s| => LowerChar(s[i]))
  }

  /**
   * Python's `str(v)`: None, booleans, ints and strings are written out;
   * the `repr` of a list or a dict is supplied by the caller.
   */
  function Str(v: Json, repr: Json -> string): (s: string)
    ensures v.JStr? ==> s == v.s
    ensures v.JInt? ==> ParseInt(s) == Some(v.i)
  {
    match v
    case JNull => "None"
    case JBool(b) => if b then "True" else "False"
    case JInt(i) => IntToStringRoundTrip(i); IntToString(i)
    case JStr(s) => s
    case _ => repr(v)
  }
}

=== FILE: wrappers.dfy ===
/** Optional values and results, failure-compatible so that `:-` can be used. */
module Wrappers {

  /** A value that may be absent (Python's `None`). */
  datatype Option<+T> = None | Some(value: T)

  /** A computed value, or the exception that stopped the computation. */
  datatype Result<+T, +E> = Ok(value: T) | Err(error: E) {

    predicate IsFailure() {
      Err?
    }

    function PropagateFailure<U>(): Result<U, E>
      requires Err?
    {
      Err(error)
    }

    function Extract(): T
      requires Ok?
    {
      value
    }
  }
}
